=== FILE: README.md ===
# Bonus points for a Spree store, in Dafny

A model of the logic in a Spree/Rails plugin that adds a loyalty "bonus points"
feature to a store:

- **Products** carry an integer `bonus_points` column (default 0, not null).
  A validator accepts a blank value or a strictly positive one.
- **Orders** have a derived `total_bonus_points`: the sum over line items of
  the product's bonus points times the quantity. An after-update hook,
  `calculate_user_bonus_points`, adds that total to the user's
  `available_bonus_points` every time the order is updated. So the hook is
  not idempotent.
- **Bonuses** are catalogue records with a soft-delete lifecycle.
  - Destroy stamps `deleted_at` and then "punches" the slug to
    `"<unix time>_<slug>"`, cut to 255 characters. The punch is skipped when
    the record is frozen, which happens only on a hard delete.
  - Restore clears `deleted_at` and re-saves with `save!`.
  - A save requires `name` and `points` to be present, and `slug` to be present
    and unique.
  - The controller lists and shows only the records the default scope keeps,
    which are the ones not soft-deleted.

Modules, one per source unit:

| file | module | source unit |
|---|---|---|
| `base.dfy` | `Base` | `Option`, `Result`, `Outcome` |
| `products.dfy` | `Products` | product decorator and the `bonus_points` column |
| `orders.dfy` | `Orders` | order decorator, `User` and `Order` classes |
| `bonuses.dfy` | `Bonuses` | one Spree::Bonus row: `deleted?`, `available?`, the punched slug text |
| `bonus_store.dfy` | `BonusStore` | the `bonuses` table: validations, destroy, restore, class `BonusTable` |
| `bonuses_controller.dfy` | `BonusesController` | `index` and `show` |

Stateful code is modelled in imperative Dafny:
- `Order` and `User` are classes, and the accrual mutates `User.availableBonusPoints`.
- `BonusTable` is a class whose `records` map (id to row) is rewritten by
  `Save`, `PunchSlug`, `Destroy` and `Restore`.
- Each of those methods is specified by a pure function of the old table
  (`SaveResult`, `PunchResult`, `DestroyResult`, `RestoreResult`).
- The lemmas about the table are proved on those functions.

Modelling choices:
- Times are integer Unix seconds, passed in as `now`.
- `discontinued?` is an input flag.
- A soft delete never freezes the record, so `Destroy` always punches. A
  record is frozen only by a hard delete, which removes the row
  (`ReallyDestroy`); the punch is then skipped.
- A failure inside a callback rolls the whole operation back: the table (or the
  order) is left as it was and the error is returned.

Two behaviours of the code are worth stating plainly:
- The validator at ror-spree.rb:91 only exempts blank values, and 0 is not
  blank. So 0 is rejected, although it is the column default (see Findings).
- Slug uniqueness is checked against every row, soft-deleted ones included.
  Rails builds the uniqueness query on the unscoped table, and the unique index
  at ror-spree.rb:177 covers every row. That is why the punch is needed before
  a slug can be reused.

## Model

| member | source | states |
|---|---|---|
| `Products.BonusPointsValid` | ror-spree.rb:91 | the `bonus_points` validator as written: a blank (nil) value passes, a present value passes only when it is greater than 0 |
| `Products.PresentValueNeedsPositive` | ror-spree.rb:91 | a present `bonus_points` value is accepted if and only if it is greater than 0 |
| `Products.BlankValueAccepted` | ror-spree.rb:91 | a blank (nil) value is accepted (`allow_blank`) |
| `Products.DefaultBonusPointsRejected` | ror-spree.rb:91 | the column default 0 is rejected, and so is -1 |
| `Products.IntendedRuleAcceptsDefault` | ror-spree.rb:91 | the corrected rule accepts the default 0 and rejects -1, and differs from the written rule only at 0 |
| `Orders.TotalBonusPoints` | ror-spree.rb:75-77 | an order with no line items totals 0; if every item has non-negative points and quantity, the total is non-negative |
| `Orders.TotalAppendItem` | ror-spree.rb:76 | appending a line item adds exactly its bonus points times its quantity |
| `Orders.TotalConcat` | ror-spree.rb:75-77 | the total is additive over concatenation of line-item lists |
| `Orders.TotalFromFront` | ror-spree.rb:76 | the model's sum recurses on the last item, like Ruby's left-to-right `sum`; it also satisfies total([x] + rest) == points(x) + total(rest) |
| `Orders.TotalExample` | ror-spree.rb:75-77 | items (10 points x 2) and (5 points x 1) total 25 |
| `Orders.Accrue` | ror-spree.rb:80 | the `+=` of `calculate_user_bonus_points`: the new balance is the old balance plus the order total |
| `Orders.AccrueNeverDecreases` | ror-spree.rb:79-82 | with non-negative line items, an accrual never lowers the user's balance |
| `Orders.AccrueTwice` | ror-spree.rb:79-82 | crediting the same order twice adds twice its total; a second credit changes nothing exactly when the total is 0 |
| `Orders.AccrueRepeatedlyAddsEachTime` | ror-spree.rb:73-82 | after n updates of an unchanged order, the balance has grown by n times the total |
| `Orders.User.constructor` | ror-spree.rb:151-155 | a new user's `available_bonus_points` starts at the column default 0 |
| `Orders.Order.CalculateUserBonusPoints` | ror-spree.rb:79-82 | the user's balance becomes the old balance plus the order total; nothing else changes; on a guest order (nil user) it fails and nothing changes |
| `Orders.Order.Update` | ror-spree.rb:73 | every update stores the new line items and credits their total to the user; a failing hook rolls the update back |
| `Orders.UpdateTwice` | ror-spree.rb:73-82 | two updates with unchanged line items raise the balance by twice the total |
| `Bonuses.Deleted` | ror-spree.rb:62-64 | `deleted?`: holds exactly when `deleted_at` is set |
| `Bonuses.Available` | ror-spree.rb:39-41 | `available?`: `available_on` is set and not later than now, the record is not deleted, and it is not discontinued |
| `Bonuses.AvailableLater` | ror-spree.rb:39-41 | a record available at one time stays available at any later time |
| `Bonuses.DeletedNeverAvailable` | ror-spree.rb:39-41 | a record with `deleted_at` set is never available |
| `Bonuses.Digits` | ror-spree.rb:55 | the text of the timestamp is a non-empty string of decimal digits with no leading zero |
| `Bonuses.DigitsRoundTrip` | ror-spree.rb:55 | reading the digits back gives the timestamp |
| `Bonuses.TimestampText` | ror-spree.rb:55 | `Time.current.to_i` as text: at least one character; for a non-negative time the digits read back as the time, for a negative one a minus sign followed by digits that read back as its magnitude |
| `Bonuses.StampedSlug` | ror-spree.rb:55 | `"#{ts}_#{slug}"` before the slice: its length is the stamp's plus one plus the slug's, and the stamp, the underscore and the old slug (nil read as "") sit at their positions in it |
| `Bonuses.PunchedSlug` | ror-spree.rb:54-56 | the punched slug is at most 255 characters and a prefix of `"<ts>_<slug>"`; it is the whole string when that fits, and exactly 255 characters otherwise |
| `Bonuses.PunchedSlugNotBlank` | ror-spree.rb:55 | the punched slug is never blank |
| `Bonuses.PunchedSlugDiffers` | ror-spree.rb:54-56 | a slug shorter than 255 characters always differs from its punched form |
| `Bonuses.PunchedSlugKeepsShortSlug` | ror-spree.rb:55 | when nothing is cut off, the old slug follows the timestamp and the underscore |
| `Bonuses.TimestampExample` | ror-spree.rb:55 | 1700000000 is written as "1700000000" |
| `Bonuses.PunchExample` | ror-spree.rb:54-56 | "reward-x" punched at 1700000000 becomes "1700000000_reward-x" |
| `Bonuses.PunchedSlugWithId` | ror-spree.rb:55 | the corrected punch: at most 255 characters, a prefix of `"<ts>_<id>_<slug>"`; it is the whole string when that fits, and exactly 255 characters when that is longer |
| `Bonuses.PunchedSlugWithIdDistinct` | ror-spree.rb:55 | with the corrected punch, two different records punched in the same second never get the same slug, whatever their old slugs, as long as the stamp with the longer id fits in 255 characters |
| `BonusStore.Violations` | ror-spree.rb:34-35 | at most three violations; the name is reported blank exactly when it is blank, the points exactly when nil, the slug exactly when it is not present, and the slug as taken exactly when it is present and another row, deleted or not, holds it |
| `BonusStore.FieldsValid` | ror-spree.rb:34-35 | the per-record validations: the name is not blank, points are set, and the slug is present |
| `BonusStore.ActiveIds` | ror-spree.rb:25 | the paranoid default scope: the ids of the rows whose `deleted_at` is not set, all of them ids of the table |
| `BonusStore.ViolationsEmptyIff` | ror-spree.rb:34-35 | a save finds no violation if and only if the name is not blank, points are present, the slug is present, and no other row holds the slug |
| `BonusStore.SaveKeepsValid` | ror-spree.rb:34-35 | a successful save stores a row that passed every validation, and keeps "every row valid, no two rows share a non-blank slug" |
| `BonusStore.SaveFailureReports` | ror-spree.rb:34-35 | a save of an invalid record fails with a non-empty list of violations |
| `BonusStore.PunchResult` | ror-spree.rb:54-56 | a successful punch keeps the table's ids and every other row; unless the record is frozen it writes the punched slug; it fails only on a record that is not frozen, and then with `RecordNotUnique` |
| `BonusStore.DestroyResult` | ror-spree.rb:25-29 | a successful destroy was of an id in the default scope, keeps the table's ids and leaves the row deleted; it fails only with `RecordNotFound` or `RecordNotUnique` |
| `BonusStore.ReallyDestroyResult` | ror-spree.rb:54-56 | a hard delete succeeds exactly when the id is in the table, and then removes exactly that id |
| `BonusStore.RestoreResult` | ror-spree.rb:58-60 | a successful restore keeps the table's ids and leaves the row not deleted; it fails only with `RecordNotFound` or `RecordInvalid` |
| `BonusStore.DestroyKeepsValid` | ror-spree.rb:54-56 | a successful destroy keeps the table invariant (the punched slug is non-blank and unique) |
| `BonusStore.DestroyEffect` | ror-spree.rb:29 | a successful destroy sets `deleted_at` to now and punches the slug; it takes the record out of the default scope and leaves every other row unchanged |
| `BonusStore.DestroyNeedsActive` | ror-spree.rb:25 | destroying a missing or soft-deleted id fails with not-found |
| `BonusStore.DestroyOutcome` | ror-spree.rb:54-56 | destroying an active record succeeds if and only if no other row holds its punched slug; otherwise the unique index refuses the punch and the destroy fails with `RecordNotUnique` |
| `BonusStore.SameSecondReuseCollides` | ror-spree.rb:54-56 | a slug freed by a destroy and reused at once collides: destroying its new holder in the same second fails with `RecordNotUnique` |
| `BonusStore.DestroyFreesSlug` | ror-spree.rb:54-56 | after a destroy of a record whose slug is under 255 characters, a new valid record can be saved with that slug |
| `BonusStore.ReallyDestroyEffect` | ror-spree.rb:55 | a hard delete removes the row, skips the punch because the record is frozen, leaves every other row unchanged, and keeps the invariant |
| `BonusStore.ReallyDestroyFreesSlug` | ror-spree.rb:55 | after a hard delete, the row's slug is free at once: a new valid record can be saved with it |
| `BonusStore.RestoreKeepsValid` | ror-spree.rb:30 | a successful restore puts the record back in the default scope and keeps the table invariant |
| `BonusStore.RestoreSucceedsWhenValid` | ror-spree.rb:58-60 | on a valid table, the `save!` of a restore always passes, and the result only clears that row's `deleted_at` |
| `BonusStore.DestroyThenRestore` | ror-spree.rb:29-30 | destroy then restore on a valid table succeeds, and gives back the original record with the punched slug |
| `BonusStore.BonusTable.Save` | ror-spree.rb:34-35 | the table becomes the save's result, or stays unchanged with the violations reported |
| `BonusStore.BonusTable.PunchSlug` | ror-spree.rb:54-56 | the row's slug becomes the punched slug unless the record is frozen; if another row holds that slug, the write is refused |
| `BonusStore.BonusTable.ReallyDestroy` | ror-spree.rb:55 | removes the row, then runs the punch on the frozen record, which skips it, as `ReallyDestroyResult` describes |
| `BonusStore.BonusTable.Destroy` | ror-spree.rb:25-29 | stamps `deleted_at`, then punches the slug, as `DestroyResult` describes; a failing punch rolls the destroy back |
| `BonusStore.BonusTable.Restore` | ror-spree.rb:58-60 | clears `deleted_at`, then re-saves, as `RestoreResult` describes; a failing `save!` rolls the restore back |
| `BonusesController.Index` | ror-spree.rb:6-8 | the listing holds exactly the rows that are not soft-deleted, unchanged |
| `BonusesController.Show` | ror-spree.rb:10-12 | returns the record if and only if the listing holds the id; otherwise it fails with not-found, including for a soft-deleted id |
| `BonusesController.AvailableIsShown` | ror-spree.rb:39-41 | an available record is listed and shown |
| `BonusesController.DestroyHides` | ror-spree.rb:6-12 | after a destroy, the record is not shown, and the listing is the old one without it |
| `BonusesController.RestoreShows` | ror-spree.rb:10-12 | after a restore, the record is shown again, and the listing gains it |
| `BonusesController.ListedSlugsUnique` | ror-spree.rb:35 | on a valid table, listed records have pairwise distinct slugs |

## Left out

- The Deface overrides and ERB views (ror-spree.rb:96-284). They only render values computed elsewhere.
- FriendlyId slug generation, `slug_candidates` and `normalize_slug` (ror-spree.rb:22-23, 32, 43-52). That library is not part of this model. `Save` receives the record as those callbacks leave it, and `Restore` re-saves the slug as stored.
- Lookup by slug in `show`. Records are found by numeric id only.
- The `active` scope beyond its `deleted_at` filter (ror-spree.rb:7). This includes the listing's order and its pagination, so `Index` is a map keyed by id.
- The images association and its dependent destroy (ror-spree.rb:27).
- The result of `user.save` (ror-spree.rb:81). A failed save of the user is not modelled, and neither are `created_at`/`updated_at`.
- The 32-bit width of the integer columns. Integers here are unbounded, so an overflow at save time is not modelled.
- Unicode white space in `blank?`. Only the ASCII white-space characters count as blank.
- The clock. `Time.current` is the parameter `now`. The same `now` stamps `deleted_at` and the punched slug. `future?` is "later than `now`".
- The source of `discontinued?`. It is an input flag.
- What triggers a hard delete. The plugin never calls one; `ReallyDestroy` exists only to show the one case where `unless frozen?` skips the punch.
- Non-numeric form input for `bonus_points`. The validator sees the cast value, either nil or an integer.
- `description` and `count_on_hand`. They are carried in `Bonus` but nothing reads them.
- Orders.Order.CalculateUserBonusPoints: its frame is the whole `User` object, not the single column. `User` is modelled with only `availableBonusPoints`, so "no other user field changes" holds only in that reduced sense.

## Findings

| source | as written | input that shows it | evidently intended | confidence | as-written member | corrected member |
|---|---|---|---|---|---|---|
| ror-spree.rb:91 | `numericality: { greater_than: 0, allow_blank: true }` rejects 0, which is not blank | a product whose `bonus_points` keeps the column default 0 (ror-spree.rb:145) fails validation, so every product without bonus points can no longer be saved | blank or non-negative accepted, negative values refused | medium, not executed | `Products.DefaultBonusPointsRejected` | `Products.IntendedRuleAcceptsDefault` |
| ror-spree.rb:55 | the punched slug depends only on the second and the old slug, and `update_column` meets the unique index at ror-spree.rb:177 | destroy row 1 with slug "x" at second 5 (it becomes "5_x"), save row 2 with slug "x", destroy row 2 in the same second: its punch is "5_x" again, the index refuses it, and the destroy fails | every soft destroy frees the slug; two records punched in the same second get different slugs | low, not executed | `BonusStore.SameSecondReuseCollides` | `Bonuses.PunchedSlugWithIdDistinct` |

`Products.BonusPointsValid` models the validator as written, and
`Products.BonusPointsValidIntended` is the corrected rule beside it.
`BonusStore` punches with `Bonuses.PunchedSlug`, as written.
`Bonuses.PunchedSlugWithId` is the corrected punch beside it; it writes the
record's id into the stamp.

=== FILE: base.dfy ===
/** Plain datatypes for missing values and for errors, shared by the other modules. */
module Base {

  /** A value that may be missing: Ruby's `nil` for a nullable column or attribute. */
  datatype Option<T> = None | Some(value: T)

  /** The outcome of a computation that either yields a value or raises an error. */
  datatype Result<T, E> = Ok(value: T) | Err(error: E)

  /** The outcome of a step that yields nothing but may raise an error. */
  datatype Outcome<E> = Pass | Fail(error: E)
}

=== FILE: bonus_store.dfy ===
/**
 * The `bonuses` table: the validations a save runs, the paranoid destroy
 * with its slug punch, and the restore that re-saves the record.
 */
module BonusStore {
  import opened Base
  import opened Bonuses

  /** The table, keyed by record id. Soft-deleted rows stay in it. */
  type Records = map<nat, Bonus>

  /** One failed validation. */
  datatype Violation = NameBlank | PointsBlank | SlugBlank | SlugTaken

  /** Why a table operation fails. */
  datatype Failure =
    | RecordNotFound                              // no row matches in the scope searched
    | RecordInvalid(violations: seq<Violation>)   // `save!` found violations
    | RecordNotUnique                             // the unique index on slug refused a write

  /** Some row other than `id` holds `slug`, deleted or not. */
  predicate SlugHeldByOther(records: Records, id: nat, slug: string)
  {
    exists j :: j in records && j != id && records[j].slug == Some(slug)
  }

  /**
   * The violations of a save of `b` under `id`, in the order the validators
   * are declared: name and points present, slug present, and a present slug
   * held by no other row (uniqueness skips a blank slug).
   */
  function Violations(records: Records, id: nat, b: Bonus): (r: seq<Violation>)
    ensures |r| <= 3
    ensures NameBlank in r <==> IsBlank(b.name)
    ensures PointsBlank in r <==> b.points.None?
    ensures SlugBlank in r <==> !Present(b.slug)
    ensures SlugTaken in r <==> Present(b.slug) && SlugHeldByOther(records, id, b.slug.value)
  {
    (if IsBlank(b.name) then [NameBlank] else [])
    + (if b.points.None? then [PointsBlank] else [])
    + (if !Present(b.slug) then [SlugBlank]
       else if SlugHeldByOther(records, id, b.slug.value) then [SlugTaken]
       else [])
  }

  /** The per-record validations, the ones that do not look at other rows. */
  predicate FieldsValid(b: Bonus)
  {
    !IsBlank(b.name) && b.points.Some? && Present(b.slug)
  }

  /** A save finds no violation exactly when the fields are valid and the slug is not taken. */
  lemma ViolationsEmptyIff(records: Records, id: nat, b: Bonus)
    ensures Violations(records, id, b) == []
            <==> FieldsValid(b) && !SlugHeldByOther(records, id, b.slug.value)
  {
    if !IsBlank(b.name) && b.points.Some? && !Present(b.slug) {
      assert Violations(records, id, b) == [SlugBlank];
    }
  }

  /** No two rows share a non-blank slug. */
  predicate SlugsUnique(records: Records)
  {
    forall i, j :: i in records && j in records && i != j && Present(records[i].slug)
      ==> records[i].slug != records[j].slug
  }

  /** The table invariant: every row passes the field validations and slugs are unique. */
  predicate TableValid(records: Records)
  {
    (forall i :: i in records ==> FieldsValid(records[i])) && SlugsUnique(records)
  }

  /** The rows the default scope sees: those not soft-deleted. */
  function ActiveIds(records: Records): (r: set<nat>)
    ensures r <= records.Keys
  {
    set i | i in records && !Deleted(records[i])
  }

  /** `save`: store `b` under `id` when no validation fails; otherwise the table is unchanged. */
  function SaveResult(records: Records, id: nat, b: Bonus): Result<Records, Failure>
  {
    var v := Violations(records, id, b);
    if v == [] then Ok(records[id := b]) else Err(RecordInvalid(v))
  }

  /**
   * `punch_slug` on row `id` at time `now`. It is skipped for a frozen
   * record, and then the row need not be in the table any more. Otherwise
   * `update_column` writes the punched slug without validation, and the
   * unique index refuses it when another row already holds it.
   */
  function PunchResult(records: Records, id: nat, now: int, frozen: bool): (r: Result<Records, Failure>)
    requires frozen || id in records
    ensures r.Ok? ==> r.value.Keys == records.Keys
    ensures r.Ok? && !frozen ==> r.value[id].slug == Some(PunchedSlug(now, records[id].slug))
    ensures r.Ok? ==> forall j :: j in records && j != id ==> r.value[j] == records[j]
    ensures r.Err? ==> !frozen && r.error == RecordNotUnique
  {
    if frozen then Ok(records)
    else
      var slug := PunchedSlug(now, records[id].slug);
      if SlugHeldByOther(records, id, slug) then Err(RecordNotUnique)
      else Ok(records[id := records[id].(slug := Some(slug))])
  }

  /**
   * Paranoid `destroy` of the record the default scope finds under `id`. It
   * stamps `deleted_at` with `now`, then the after-destroy punch runs. A soft
   * delete does not freeze the record, so the punch always runs. A failing
   * punch rolls the whole destroy back.
   */
  function DestroyResult(records: Records, id: nat, now: int): (r: Result<Records, Failure>)
    ensures r.Ok? ==> id in ActiveIds(records) && r.value.Keys == records.Keys && Deleted(r.value[id])
    ensures r.Err? ==> r.error == RecordNotFound || r.error == RecordNotUnique
  {
    if id !in ActiveIds(records) then Err(RecordNotFound)
    else PunchResult(records[id := records[id].(deletedAt := Some(now))], id, now, false)
  }

  /**
   * The hard delete of row `id`, deleted or not: the row leaves the table.
   * The record is frozen by the time the after-destroy punch runs, so the
   * punch is skipped.
   */
  function ReallyDestroyResult(records: Records, id: nat, now: int): (r: Result<Records, Failure>)
    ensures r.Ok? <==> id in records
    ensures r.Ok? ==> r.value.Keys == records.Keys - {id}
  {
    if id !in records then Err(RecordNotFound)
    else PunchResult(records - {id}, id, now, true)
  }

  /**
   * `restore` of row `id`, deleted or not: `deleted_at` is cleared and the
   * after-restore callback runs `save!`; a failing save rolls the restore back.
   */
  function RestoreResult(records: Records, id: nat): (r: Result<Records, Failure>)
    ensures r.Ok? ==> id in r.value && !Deleted(r.value[id]) && r.value.Keys == records.Keys
    ensures r.Err? ==> r.error == RecordNotFound || r.error.RecordInvalid?
  {
    if id !in records then Err(RecordNotFound)
    else SaveResult(records, id, records[id].(deletedAt := None))
  }

  /** Whether a method's outcome and new table are the ones `res` describes. */
  predicate Reflects(res: Result<Records, Failure>, out: Outcome<Failure>, before: Records, after: Records)
  {
    match res
    case Ok(next) => out == Pass && after == next
    case Err(e) => out == Fail(e) && after == before
  }

  /** Writing a row does not change which other rows hold a slug. */
  lemma SlugHeldByOtherUpdate(records: Records, id: nat, b: Bonus, slug: string)
    ensures SlugHeldByOther(records[id := b], id, slug) == SlugHeldByOther(records, id, slug)
  {
    if SlugHeldByOther(records, id, slug) {
      var j :| j in records && j != id && records[j].slug == Some(slug);
      assert records[id := b][j] == records[j];
    }
  }

  /**
   * Writing a row whose fields are valid and whose slug no other row holds
   * keeps the table invariant.
   */
  lemma WriteKeepsValid(records: Records, id: nat, b: Bonus)
    requires TableValid(records)
    requires FieldsValid(b) && !SlugHeldByOther(records, id, b.slug.value)
    ensures TableValid(records[id := b])
  {
    var next := records[id := b];
    forall i, j | i in next && j in next && i != j && Present(next[i].slug)
      ensures next[i].slug != next[j].slug
    {
      if i == id {
        assert next[j] == records[j];
      } else if j == id {
        assert next[i] == records[i];
        assert !(i in records && i != id && records[i].slug == Some(b.slug.value));
      }
    }
  }

  /** A successful save stores a row that passed every validation, and keeps the invariant. */
  lemma SaveKeepsValid(records: Records, id: nat, b: Bonus)
    requires TableValid(records)
    requires SaveResult(records, id, b).Ok?
    ensures FieldsValid(b) && !SlugHeldByOther(records, id, b.slug.value)
    ensures TableValid(SaveResult(records, id, b).value)
  {
    ViolationsEmptyIff(records, id, b);
    WriteKeepsValid(records, id, b);
  }

  /** A failed save leaves the table as it was and reports at least one violation. */
  lemma SaveFailureReports(records: Records, id: nat, b: Bonus)
    requires !(FieldsValid(b) && !SlugHeldByOther(records, id, b.slug.value))
    ensures SaveResult(records, id, b).Err?
    ensures SaveResult(records, id, b).error.RecordInvalid?
    ensures SaveResult(records, id, b).error.violations != []
  {
    ViolationsEmptyIff(records, id, b);
  }

  /** A successful destroy keeps the table invariant. */
  lemma DestroyKeepsValid(records: Records, id: nat, now: int)
    requires TableValid(records)
    requires DestroyResult(records, id, now).Ok?
    ensures TableValid(DestroyResult(records, id, now).value)
  {
    var stamped := records[id := records[id].(deletedAt := Some(now))];
    SlugHeldByOtherUpdate(records, id, records[id].(deletedAt := Some(now)), records[id].slug.value);
    WriteKeepsValid(records, id, records[id].(deletedAt := Some(now)));
    var slug := PunchedSlug(now, stamped[id].slug);
    PunchedSlugNotBlank(now, stamped[id].slug);
    WriteKeepsValid(stamped, id, stamped[id].(slug := Some(slug)));
  }

  /**
   * A successful destroy soft-deletes row `id` with `deleted_at` set to
   * `now`, punches its slug, removes it from the default scope, and touches
   * no other row.
   */
  lemma DestroyEffect(records: Records, id: nat, now: int)
    requires DestroyResult(records, id, now).Ok?
    ensures var next := DestroyResult(records, id, now).value;
      && next.Keys == records.Keys
      && next[id] == records[id].(deletedAt := Some(now),
                                  slug := Some(PunchedSlug(now, records[id].slug)))
      && (forall j :: j in records && j != id ==> next[j] == records[j])
      && ActiveIds(next) == ActiveIds(records) - {id}
  {
  }

  /** Destroy finds only records in the default scope: a missing or soft-deleted id is not found. */
  lemma DestroyNeedsActive(records: Records, id: nat, now: int)
    requires id !in records || Deleted(records[id])
    ensures DestroyResult(records, id, now) == Err(RecordNotFound)
  {
  }

  /**
   * Destroying an active record succeeds exactly when no other row holds
   * its punched slug; otherwise the unique index refuses the punch and the
   * destroy fails with nothing changed.
   */
  lemma DestroyOutcome(records: Records, id: nat, now: int)
    requires id in ActiveIds(records)
    ensures var punched := PunchedSlug(now, records[id].slug);
      && (DestroyResult(records, id, now).Ok? <==> !SlugHeldByOther(records, id, punched))
      && (SlugHeldByOther(records, id, punched) ==> DestroyResult(records, id, now) == Err(RecordNotUnique))
  {
    var punched := PunchedSlug(now, records[id].slug);
    SlugHeldByOtherUpdate(records, id, records[id].(deletedAt := Some(now)), punched);
  }

  /**
   * Destroying a record whose slug is shorter than the limit frees that
   * slug: afterwards a valid record may be saved under it.
   */
  lemma DestroyFreesSlug(records: Records, id: nat, now: int, s: string, newId: nat, b: Bonus)
    requires TableValid(records) && id in ActiveIds(records)
    requires records[id].slug == Some(s) && |s| < SlugLimit
    requires DestroyResult(records, id, now).Ok?
    requires newId !in records && FieldsValid(b) && b.slug == Some(s)
    ensures SaveResult(DestroyResult(records, id, now).value, newId, b).Ok?
  {
    var next := DestroyResult(records, id, now).value;
    DestroyEffect(records, id, now);
    PunchedSlugDiffers(now, s);
    forall j | j in next && j != newId
      ensures next[j].slug != Some(s)
    {
      if j != id {
        assert next[j] == records[j];
        assert records[id].slug != records[j].slug;
      }
    }
    ViolationsEmptyIff(next, newId, b);
  }

  /**
   * A slug freed by a destroy and reused at once collides: when the new
   * holder is destroyed in the same second, it punches to the slug the first
   * row already holds, and the unique index refuses the second destroy.
   */
  lemma SameSecondReuseCollides()
    ensures var row := Bonus("Mug", None, Some(10), None, None, Some("x"), 0);
      && DestroyResult(map[1 := row], 1, 5).Ok?
      && var first := DestroyResult(map[1 := row], 1, 5).value;
      && SaveResult(first, 2, row).Ok?
      && DestroyResult(SaveResult(first, 2, row).value, 2, 5) == Err(RecordNotUnique)
  {
    var row := Bonus("Mug", None, Some(10), None, None, Some("x"), 0);
    assert Digits(5) == "5";
    assert PunchedSlug(5, Some("x")) == "5_x";
    var stamped := row.(deletedAt := Some(5));
    var first := map[1 := stamped.(slug := Some("5_x"))];
    assert 1 in ActiveIds(map[1 := row]);
    assert map[1 := row][1 := stamped] == map[1 := stamped];
    assert !SlugHeldByOther(map[1 := stamped], 1, "5_x");
    assert map[1 := stamped][1 := stamped.(slug := Some("5_x"))] == first;
    assert PunchResult(map[1 := stamped], 1, 5, false) == Ok(first);
    assert DestroyResult(map[1 := row], 1, 5) == Ok(first);
    assert !SlugHeldByOther(first, 2, "x") by {
      assert first[1].slug != Some("x");
    }
    assert !IsBlank("Mug") by { assert !IsSpace("Mug"[0]); }
    assert !IsBlank("x") by { assert !IsSpace("x"[0]); }
    assert Violations(first, 2, row) == [];
    var second := first[2 := row];
    assert SlugHeldByOther(second[2 := stamped], 2, "5_x") by {
      assert second[2 := stamped][1].slug == Some("5_x");
    }
  }

  /** A successful hard delete removes row `id`, leaves every other row as it was, and keeps the invariant. */
  lemma ReallyDestroyEffect(records: Records, id: nat, now: int)
    requires TableValid(records)
    requires ReallyDestroyResult(records, id, now).Ok?
    ensures var next := ReallyDestroyResult(records, id, now).value;
      && next.Keys == records.Keys - {id}
      && (forall j :: j in next ==> next[j] == records[j])
      && TableValid(next)
  {
  }

  /**
   * A hard delete skips the punch, and the row's slug is free at once: a
   * valid record may be saved under it, whatever its id.
   */
  lemma ReallyDestroyFreesSlug(records: Records, id: nat, now: int, newId: nat, b: Bonus)
    requires TableValid(records) && id in records
    requires newId !in records - {id} && FieldsValid(b) && b.slug == records[id].slug
    ensures ReallyDestroyResult(records, id, now).Ok?
    ensures SaveResult(ReallyDestroyResult(records, id, now).value, newId, b).Ok?
  {
    var next := records - {id};
    forall j | j in next && j != newId
      ensures next[j].slug != b.slug
    {
      assert records[id].slug != records[j].slug;
    }
    ViolationsEmptyIff(next, newId, b);
  }

  /** A successful restore puts row `id` back in the default scope and keeps the invariant. */
  lemma RestoreKeepsValid(records: Records, id: nat)
    requires TableValid(records)
    requires RestoreResult(records, id).Ok?
    ensures id in ActiveIds(RestoreResult(records, id).value)
    ensures TableValid(RestoreResult(records, id).value)
  {
    SaveKeepsValid(records, id, records[id].(deletedAt := None));
  }

  /** On a valid table every row can be restored: its re-save finds no violation. */
  lemma RestoreSucceedsWhenValid(records: Records, id: nat)
    requires TableValid(records) && id in records
    ensures RestoreResult(records, id).Ok?
    ensures RestoreResult(records, id).value
            == records[id := records[id].(deletedAt := None)]
  {
    var b := records[id].(deletedAt := None);
    forall j | j in records && j != id
      ensures records[j].slug != Some(b.slug.value)
    {
      assert records[id].slug != records[j].slug;
    }
    ViolationsEmptyIff(records, id, b);
  }

  /**
   * Destroy then restore on a valid table: the record is active again with
   * every column as before except the slug, which keeps the punched value.
   */
  lemma DestroyThenRestore(records: Records, id: nat, now: int)
    requires TableValid(records)
    requires DestroyResult(records, id, now).Ok?
    ensures var next := DestroyResult(records, id, now).value;
      && RestoreResult(next, id).Ok?
      && RestoreResult(next, id).value
         == records[id := records[id].(slug := next[id].slug)]
  {
    var next := DestroyResult(records, id, now).value;
    DestroyKeepsValid(records, id, now);
    DestroyEffect(records, id, now);
    RestoreAfterStamp(records, next, id);
  }

  /**
   * Restoring a row that differs from its old self only in `deleted_at` and
   * the slug gives back the old table with the new slug.
   */
  lemma RestoreAfterStamp(records: Records, next: Records, id: nat)
    requires TableValid(next) && id in records && records[id].deletedAt.None?
    requires next.Keys == records.Keys
    requires next[id] == records[id].(deletedAt := next[id].deletedAt, slug := next[id].slug)
    requires forall j :: j in records && j != id ==> next[j] == records[j]
    ensures RestoreResult(next, id).Ok?
    ensures RestoreResult(next, id).value == records[id := records[id].(slug := next[id].slug)]
  {
    RestoreSucceedsWhenValid(next, id);
    var row := records[id].(slug := next[id].slug);
    assert next[id].(deletedAt := None) == row;
    assert next[id := row] == records[id := row];
  }

  /** The table as the application holds it. */
  class BonusTable {
    var records: Records

    /** An empty table. */
    constructor ()
      ensures records == map[]
    {
      records := map[];
    }

    /** `save`: validate, then write the row. */
    method Save(id: nat, b: Bonus) returns (out: Outcome<Failure>)
      modifies this
      ensures Reflects(SaveResult(old(records), id, b), out, old(records), records)
    {
      var v := Violations(records, id, b);
      if v != [] {
        return Fail(RecordInvalid(v));
      }
      records := records[id := b];
      return Pass;
    }

    /** `punch_slug`: rewrite the slug column of row `id` in place, unless the record is frozen. */
    method PunchSlug(id: nat, now: int, frozen: bool) returns (out: Outcome<Failure>)
      requires frozen || id in records
      modifies this
      ensures Reflects(PunchResult(old(records), id, now, frozen), out, old(records), records)
    {
      if frozen {
        return Pass;
      }
      var slug := PunchedSlug(now, records[id].slug);
      if exists j :: j in records && j != id && records[j].slug == Some(slug) {
        return Fail(RecordNotUnique);
      }
      records := records[id := records[id].(slug := Some(slug))];
      return Pass;
    }

    /** Paranoid `destroy`: stamp `deleted_at`, then punch the slug; roll back on failure. */
    method Destroy(id: nat, now: int) returns (out: Outcome<Failure>)
      modifies this
      ensures Reflects(DestroyResult(old(records), id, now), out, old(records), records)
    {
      if id !in records || Deleted(records[id]) {
        return Fail(RecordNotFound);
      }
      var snapshot := records;
      records := records[id := records[id].(deletedAt := Some(now))];
      out := PunchSlug(id, now, false);
      if out.Fail? {
        records := snapshot;
      }
    }

    /** Hard delete: remove the row; the frozen record then skips the punch. */
    method ReallyDestroy(id: nat, now: int) returns (out: Outcome<Failure>)
      modifies this
      ensures Reflects(ReallyDestroyResult(old(records), id, now), out, old(records), records)
    {
      if id !in records {
        return Fail(RecordNotFound);
      }
      records := records - {id};
      out := PunchSlug(id, now, true);
    }

    /** `restore`: clear `deleted_at`, then `save!`; roll back on failure. */
    method Restore(id: nat) returns (out: Outcome<Failure>)
      modifies this
      ensures Reflects(RestoreResult(old(records), id), out, old(records), records)
    {
      if id !in records {
        return Fail(RecordNotFound);
      }
      var snapshot := records;
      var restored := records[id].(deletedAt := None);
      records := records[id := restored];
      SlugHeldByOtherUpdate(snapshot, id, restored, if restored.slug.Some? then restored.slug.value else "");
      out := Save(id, restored);
      if out.Fail? {
        records := snapshot;
      }
    }
  }
}

=== FILE: bonuses.dfy ===
/**
 * One Spree::Bonus record: its columns, the `deleted?` and `available?`
 * predicates, and the text `punch_slug` writes into the slug column.
 */
module Bonuses {
  import opened Base

  /** The longest slug `punch_slug` writes: the slice `[0..254]` keeps 255 characters. */
  const SlugLimit: nat := 255

  /**
   * A row of the `bonuses` table. The id is the key of the table that holds
   * the row; timestamps are Unix seconds.
   */
  datatype Bonus = Bonus(
    name: string,
    description: Option<string>,
    points: Option<int>,
    availableOn: Option<int>,
    deletedAt: Option<int>,
    slug: Option<string>,
    countOnHand: int)

  /** The ASCII white-space characters: space, tab, line feed, vertical tab, form feed, carriage return. */
  predicate IsSpace(c: char)
  {
    c == ' ' || '\t' <= c <= '\r'
  }

  /** Ruby's `blank?` on a string: empty or white space only. */
  predicate IsBlank(s: string)
  {
    forall i :: 0 <= i < |s| ==> IsSpace(s[i])
  }

  /** `presence` on a string attribute: not nil and not blank. */
  predicate Present(s: Option<string>)
  {
    s.Some? && !IsBlank(s.value)
  }

  /** `deleted?`: the soft-delete timestamp is set. */
  predicate Deleted(b: Bonus)
  {
    b.deletedAt.Some?
  }

  /**
   * `available?`: the availability date is set and not in the future, the
   * record is not soft-deleted and it is not discontinued (a flag defined
   * outside this plugin, taken as an input).
   */
  predicate Available(b: Bonus, now: int, discontinued: bool)
  {
    !(b.availableOn.None? || b.availableOn.value > now) && !Deleted(b) && !discontinued
  }

  /** Availability is never lost by waiting: a record available now stays available later. */
  lemma AvailableLater(b: Bonus, now: int, later: int, discontinued: bool)
    requires Available(b, now, discontinued) && now <= later
    ensures Available(b, later, discontinued)
  {
  }

  /** A soft-deleted record is never available, whatever the date. */
  lemma DeletedNeverAvailable(b: Bonus, now: int, discontinued: bool)
    requires Deleted(b)
    ensures !Available(b, now, discontinued)
  {
  }

  function DigitChar(d: nat): (c: char)
    requires d < 10
    ensures '0' <= c <= '9' && (c as int) - ('0' as int) == d
  {
    "0123456789"[d]
  }

  /** The decimal digits of a natural number, most significant first, without leading zeros. */
  function Digits(n: nat): (s: string)
    ensures 1 <= |s|
    ensures forall i :: 0 <= i < |s| ==> '0' <= s[i] <= '9'
    ensures 1 < |s| ==> s[0] != '0'
  {
    if n < 10 then [DigitChar(n)] else Digits(n / 10) + [DigitChar(n % 10)]
  }

  /** The number a string of decimal digits denotes. */
  function DigitsValue(s: string): int
  {
    if s == [] then 0
    else 10 * DigitsValue(s[..|s| - 1]) + ((s[|s| - 1] as int) - ('0' as int))
  }

  /** Reading back the digits of `n` gives `n`. */
  lemma {:induction false} DigitsRoundTrip(n: nat)
    ensures DigitsValue(Digits(n)) == n
  {
    if n >= 10 {
      DigitsRoundTrip(n / 10);
      var s := Digits(n);
      assert s[..|s| - 1] == Digits(n / 10);
    }
  }

  /**
   * Ruby's `Integer#to_s`: a minus sign for negative numbers, then the
   * digits. Reading the digits back gives the number again.
   */
  function TimestampText(t: int): (r: string)
    ensures 1 <= |r|
    ensures t >= 0 ==> DigitsValue(r) == t
    ensures t < 0 ==> r[0] == '-' && DigitsValue(r[1..]) == -t
  {
    if t < 0 then
      DigitsRoundTrip(-t);
      assert ("-" + Digits(-t))[1..] == Digits(-t);
      "-" + Digits(-t)
    else
      DigitsRoundTrip(t);
      Digits(t)
  }

  /** The text of a nullable string interpolated into another: nil gives "". */
  function Interpolated(s: Option<string>): string
  {
    match s
    case None => ""
    case Some(v) => v
  }

  /**
   * `"#{ts}_#{slug}"` before the slice: the stamp, an underscore, then the
   * old slug, each found again at its position.
   */
  function StampedSlug(now: int, slug: Option<string>): (r: string)
    ensures |r| == |TimestampText(now)| + 1 + |Interpolated(slug)|
    ensures r[..|TimestampText(now)|] == TimestampText(now)
    ensures r[|TimestampText(now)|] == '_'
    ensures r[|TimestampText(now)| + 1..] == Interpolated(slug)
  {
    TimestampText(now) + "_" + Interpolated(slug)
  }

  /**
   * The slug `punch_slug` writes at time `now`: the first 255 characters of
   * the stamped slug, which is all of it when it is short enough.
   */
  function PunchedSlug(now: int, slug: Option<string>): (r: string)
    ensures |r| <= SlugLimit
    ensures r <= StampedSlug(now, slug)
    ensures |StampedSlug(now, slug)| <= SlugLimit ==> r == StampedSlug(now, slug)
    ensures |StampedSlug(now, slug)| > SlugLimit ==> |r| == SlugLimit
  {
    var full := StampedSlug(now, slug);
    if |full| <= SlugLimit then full else full[..SlugLimit]
  }

  /** The punched slug starts with a digit or a minus sign, so it is never blank. */
  lemma PunchedSlugNotBlank(now: int, slug: Option<string>)
    ensures !IsBlank(PunchedSlug(now, slug))
  {
    var r := PunchedSlug(now, slug);
    var ts := TimestampText(now);
    assert r[0] == StampedSlug(now, slug)[0] == ts[0];
    assert !IsSpace(r[0]);
  }

  /**
   * A slug shorter than the limit never survives the punch: the punched text
   * is strictly longer, so the old slug is free for another record.
   */
  lemma PunchedSlugDiffers(now: int, s: string)
    requires |s| < SlugLimit
    ensures PunchedSlug(now, Some(s)) != s
  {
    var full := StampedSlug(now, Some(s));
    assert |full| > |s|;
  }

  /** When nothing is cut off, the old slug is what follows the stamp and the underscore. */
  lemma PunchedSlugKeepsShortSlug(now: int, s: string)
    requires |TimestampText(now)| + 1 + |s| <= SlugLimit
    ensures PunchedSlug(now, Some(s)) == TimestampText(now) + "_" + s
    ensures PunchedSlug(now, Some(s))[|TimestampText(now)| + 1..] == s
  {
  }

  /**
   * A punch that also writes the record's id into the stamp:
   * `"#{ts}_#{id}_#{slug}"`, cut to the first 255 characters.
   */
  function PunchedSlugWithId(now: int, id: nat, slug: Option<string>): (r: string)
    ensures |r| <= SlugLimit
    ensures r <= TimestampText(now) + "_" + Digits(id) + "_" + Interpolated(slug)
    ensures |TimestampText(now) + "_" + Digits(id) + "_" + Interpolated(slug)| <= SlugLimit
            ==> r == TimestampText(now) + "_" + Digits(id) + "_" + Interpolated(slug)
    ensures |TimestampText(now) + "_" + Digits(id) + "_" + Interpolated(slug)| > SlugLimit
            ==> |r| == SlugLimit
  {
    var full := TimestampText(now) + "_" + Digits(id) + "_" + Interpolated(slug);
    if |full| <= SlugLimit then full else full[..SlugLimit]
  }

  /** The stamp `"#{ts}_#{id}_"` that heads a punched slug with an id. */
  function IdStamp(now: int, id: nat): string
  {
    TimestampText(now) + "_" + Digits(id) + "_"
  }

  /** A punched slug with an id keeps its whole stamp when the stamp fits. */
  lemma IdStampKept(now: int, id: nat, s: Option<string>)
    requires |IdStamp(now, id)| <= SlugLimit
    ensures PunchedSlugWithId(now, id, s)[..|IdStamp(now, id)|] == IdStamp(now, id)
  {
    var full := TimestampText(now) + "_" + Digits(id) + "_" + Interpolated(s);
    assert full == IdStamp(now, id) + Interpolated(s);
  }

  /** A stamp whose id is cut short ends in `_` where the longer id still has a digit. */
  lemma ShorterStampDiffers(p: string, di: string, dj: string)
    requires |di| < |dj| && dj[|di|] != '_'
    ensures p + di + "_" != (p + dj + "_")[..|p| + |di| + 1]
  {
    assert (p + di + "_")[|p| + |di|] == '_';
    assert (p + dj + "_")[..|p| + |di| + 1][|p| + |di|] == dj[|di|];
  }

  /** Stamps with ids of the same length differ when the ids do. */
  lemma SameLengthStampDiffers(p: string, di: string, dj: string)
    requires |di| == |dj| && di != dj
    ensures p + di + "_" != (p + dj + "_")[..|p| + |di| + 1]
  {
    assert (p + di + "_")[|p|..|p| + |di|] == di;
    assert (p + dj + "_")[..|p| + |di| + 1][|p|..|p| + |dj|] == dj;
  }

  /** Two stamps of the same second differ once the ids do, even on the shorter stamp's length. */
  lemma IdStampsDiffer(now: int, i: nat, j: nat)
    requires i != j && |Digits(i)| <= |Digits(j)|
    ensures IdStamp(now, i) != IdStamp(now, j)[..|IdStamp(now, i)|]
  {
    var p, di, dj := TimestampText(now) + "_", Digits(i), Digits(j);
    assert IdStamp(now, i) == p + di + "_" && IdStamp(now, j) == p + dj + "_";
    if |di| < |dj| {
      ShorterStampDiffers(p, di, dj);
    } else {
      DigitsRoundTrip(i);
      DigitsRoundTrip(j);
      assert DigitsValue(di) != DigitsValue(dj);
      SameLengthStampDiffers(p, di, dj);
    }
  }

  /** The distinctness below, with the shorter id first. */
  lemma PunchedSlugWithIdDistinctOrdered(now: int, i: nat, j: nat, s: Option<string>, s': Option<string>)
    requires i != j && |Digits(i)| <= |Digits(j)|
    requires |TimestampText(now)| + |Digits(j)| + 2 <= SlugLimit
    ensures PunchedSlugWithId(now, i, s) != PunchedSlugWithId(now, j, s')
  {
    var m := |IdStamp(now, i)|;
    IdStampKept(now, i, s);
    IdStampKept(now, j, s');
    IdStampsDiffer(now, i, j);
    var ri, rj := PunchedSlugWithId(now, i, s), PunchedSlugWithId(now, j, s');
    assert rj[..m] == rj[..|IdStamp(now, j)|][..m];
    assert ri[..m] != rj[..m];
  }

  /**
   * Two different records punched in the same second never receive the same
   * slug, whatever their slugs were, as long as the stamp with the longer
   * id fits within the limit.
   */
  lemma PunchedSlugWithIdDistinct(now: int, i: nat, j: nat, s: Option<string>, s': Option<string>)
    requires i != j
    requires |TimestampText(now)| + (if |Digits(i)| <= |Digits(j)| then |Digits(j)| else |Digits(i)|) + 2 <= SlugLimit
    ensures PunchedSlugWithId(now, i, s) != PunchedSlugWithId(now, j, s')
  {
    if |Digits(i)| <= |Digits(j)| {
      PunchedSlugWithIdDistinctOrdered(now, i, j, s, s');
    } else {
      PunchedSlugWithIdDistinctOrdered(now, j, i, s', s);
    }
  }

  /** Appending a digit to a positive number appends its character to the text. */
  lemma DigitsAppend(n: nat, d: nat)
    requires 1 <= n && d < 10
    ensures Digits(10 * n + d) == Digits(n) + [DigitChar(d)]
  {
    assert (10 * n + d) / 10 == n && (10 * n + d) % 10 == d;
  }

  /** The text of the timestamp used in the worked example below. */
  lemma TimestampExample()
    ensures TimestampText(1700000000) == "1700000000"
  {
    DigitsAppend(1, 7);
    DigitsAppend(17, 0);
    DigitsAppend(170, 0);
    DigitsAppend(1700, 0);
    DigitsAppend(17000, 0);
    DigitsAppend(170000, 0);
    DigitsAppend(1700000, 0);
    DigitsAppend(17000000, 0);
    DigitsAppend(170000000, 0);
  }

  /** The worked example: "reward-x" destroyed at 1700000000 becomes "1700000000_reward-x". */
  lemma PunchExample()
    ensures PunchedSlug(1700000000, Some("reward-x")) == "1700000000_reward-x"
  {
    TimestampExample();
    assert StampedSlug(1700000000, Some("reward-x")) == "1700000000" + "_" + "reward-x";
  }
}

=== FILE: bonuses_controller.dfy ===
/**
 * BonusesController: the read-only listing and detail pages, both reading
 * through the default scope, which hides soft-deleted rows.
 */
module BonusesController {
  import opened Base
  import opened Bonuses
  import opened BonusStore

  /** `index`: the records of the default scope, keyed by id. */
  function Index(records: Records): (listed: map<nat, Bonus>)
    ensures listed.Keys == ActiveIds(records)
    ensures forall id :: id in listed ==> listed[id] == records[id] && !Deleted(listed[id])
  {
    map id | id in records && !Deleted(records[id]) :: records[id]
  }

  /**
   * `show`: the record under `id` when the default scope holds it; a missing
   * or soft-deleted id is not found.
   */
  function Show(records: Records, id: nat): (r: Result<Bonus, Failure>)
    ensures r.Ok? <==> id in Index(records)
    ensures r.Ok? ==> r.value == Index(records)[id] && !Deleted(r.value)
    ensures r.Err? ==> r.error == RecordNotFound
  {
    if id in records && !Deleted(records[id]) then Ok(records[id]) else Err(RecordNotFound)
  }

  /** Anything available is listed and shown. */
  lemma AvailableIsShown(records: Records, id: nat, now: int, discontinued: bool)
    requires id in records && Available(records[id], now, discontinued)
    ensures Show(records, id) == Ok(records[id])
    ensures id in Index(records)
  {
  }

  /**
   * After a successful destroy the record is neither listed nor shown, and
   * the listing is the old one without it.
   */
  lemma DestroyHides(records: Records, id: nat, now: int)
    requires DestroyResult(records, id, now).Ok?
    ensures var next := DestroyResult(records, id, now).value;
      && Show(next, id) == Err(RecordNotFound)
      && Index(next) == Index(records) - {id}
  {
    var next := DestroyResult(records, id, now).value;
    DestroyEffect(records, id, now);
    assert Index(next).Keys == (Index(records) - {id}).Keys;
  }

  /** After a successful restore the record is shown again, with its slug as stored. */
  lemma RestoreShows(records: Records, id: nat)
    requires RestoreResult(records, id).Ok?
    ensures var next := RestoreResult(records, id).value;
      && Show(next, id) == Ok(records[id].(deletedAt := None))
      && Index(next) == Index(records)[id := records[id].(deletedAt := None)]
  {
    var next := RestoreResult(records, id).value;
    assert Index(next).Keys == Index(records)[id := records[id].(deletedAt := None)].Keys;
  }

  /** On a valid table, the listed records have pairwise distinct slugs. */
  lemma ListedSlugsUnique(records: Records, i: nat, j: nat)
    requires TableValid(records)
    requires i in Index(records) && j in Index(records) && i != j
    ensures Index(records)[i].slug != Index(records)[j].slug
  {
    assert records[i] == Index(records)[i];
  }
}

=== FILE: orders.dfy ===
/**
 * The order decorator: an order's total bonus points, and the after-update
 * hook that credits that total to the purchasing user.
 */
module Orders {
  import opened Base
  import opened Products

  /** A line item: the product bought and how many of it. */
  datatype LineItem = LineItem(product: Product, quantity: int)

  /** What one line item contributes: the product's bonus points times the quantity. */
  function ItemPoints(item: LineItem): int
  {
    item.product.bonusPoints * item.quantity
  }

  /** Neither the product's bonus points nor the quantity is negative. */
  predicate NonNegativeItem(item: LineItem)
  {
    item.product.bonusPoints >= 0 && item.quantity >= 0
  }

  predicate AllNonNegative(items: seq<LineItem>)
  {
    forall i :: 0 <= i < |items| ==> NonNegativeItem(items[i])
  }

  /**
   * `total_bonus_points`: the sum, folded from the first line item to the
   * last, of each item's points. An order without line items totals 0, and
   * an order whose items are all non-negative has a non-negative total.
   */
  function TotalBonusPoints(items: seq<LineItem>): (total: int)
    ensures items == [] ==> total == 0
    ensures AllNonNegative(items) ==> total >= 0
  {
    if items == [] then 0
    else
      var init := items[..|items| - 1];
      assert AllNonNegative(items) ==> AllNonNegative(init) by {
        forall i | 0 <= i < |init| ensures init[i] == items[i] { }
      }
      TotalBonusPoints(init) + ItemPoints(items[|items| - 1])
  }

  /** Appending one line item adds exactly that item's points. */
  lemma TotalAppendItem(items: seq<LineItem>, item: LineItem)
    ensures TotalBonusPoints(items + [item]) == TotalBonusPoints(items) + ItemPoints(item)
  {
    assert (items + [item])[..|items|] == items;
  }

  /** The total is additive over concatenation of line-item lists. */
  lemma {:induction false} TotalConcat(a: seq<LineItem>, b: seq<LineItem>)
    ensures TotalBonusPoints(a + b) == TotalBonusPoints(a) + TotalBonusPoints(b)
    decreases |b|
  {
    if b == [] {
      assert a + b == a;
    } else {
      var init, last := b[..|b| - 1], b[|b| - 1];
      assert b == init + [last];
      assert a + b == (a + init) + [last];
      TotalConcat(a, init);
      TotalAppendItem(a + init, last);
      TotalAppendItem(init, last);
    }
  }

  /**
   * The total is the sum of the items' points whatever order the fold takes:
   * summing from the front gives the same value.
   */
  lemma TotalFromFront(item: LineItem, rest: seq<LineItem>)
    ensures TotalBonusPoints([item] + rest) == ItemPoints(item) + TotalBonusPoints(rest)
  {
    TotalConcat([item], rest);
    assert [item] == [] + [item];
    TotalAppendItem([], item);
  }

  /** The worked example: 10 points x 2 plus 5 points x 1 is 25. */
  lemma TotalExample()
    ensures TotalBonusPoints([LineItem(Product(10), 2), LineItem(Product(5), 1)]) == 25
  {
    var a, b := LineItem(Product(10), 2), LineItem(Product(5), 1);
    TotalAppendItem([a], b);
    TotalAppendItem([], a);
    assert [a, b] == [a] + [b];
    assert [a] == [] + [a];
  }

  /**
   * The balance after one run of `calculate_user_bonus_points`: the old
   * balance plus the order's total.
   */
  function Accrue(balance: int, items: seq<LineItem>): int
  {
    balance + TotalBonusPoints(items)
  }

  /** With non-negative line items the user's balance never decreases. */
  lemma AccrueNeverDecreases(balance: int, items: seq<LineItem>)
    requires AllNonNegative(items)
    ensures Accrue(balance, items) >= balance
  {
  }

  /**
   * Accrual is not idempotent: crediting the same order twice adds its total
   * twice, and a second credit leaves the balance unchanged exactly when the
   * total is 0.
   */
  lemma AccrueTwice(balance: int, items: seq<LineItem>)
    ensures Accrue(Accrue(balance, items), items) == balance + 2 * TotalBonusPoints(items)
    ensures Accrue(Accrue(balance, items), items) == Accrue(balance, items)
            <==> TotalBonusPoints(items) == 0
  {
  }

  /** The balance after `n` updates of an order whose line items did not change. */
  function AccrueRepeatedly(balance: int, items: seq<LineItem>, n: nat): int
  {
    if n == 0 then balance else Accrue(AccrueRepeatedly(balance, items, n - 1), items)
  }

  /** After `n` updates of an unchanged order the balance has grown by `n` times its total. */
  lemma {:induction false} AccrueRepeatedlyAddsEachTime(balance: int, items: seq<LineItem>, n: nat)
    ensures AccrueRepeatedly(balance, items, n) == balance + n * TotalBonusPoints(items)
  {
    if n > 0 {
      AccrueRepeatedlyAddsEachTime(balance, items, n - 1);
      var t := TotalBonusPoints(items);
      assert (n - 1) * t + t == n * t;
    }
  }

  /** Why an order update fails. */
  datatype OrderError =
    /** The order has no user (a guest order): the hook calls a method on nil. */
    MissingUser

  /** A user, reduced to the accumulator column this plugin adds. */
  class User {
    var availableBonusPoints: int

    /** A new user starts from the column default, 0. */
    constructor ()
      ensures availableBonusPoints == 0
    {
      availableBonusPoints := 0;
    }
  }

  /** An order: its line items and the user it belongs to, if any. */
  class Order {
    var lineItems: seq<LineItem>
    var user: User?

    constructor (items: seq<LineItem>, owner: User?)
      ensures lineItems == items && user == owner
    {
      lineItems := items;
      user := owner;
    }

    /**
     * `calculate_user_bonus_points`: add the order's total to the user's
     * balance. Only that one field of the user changes. On a guest order the
     * call raises and nothing changes.
     */
    method CalculateUserBonusPoints() returns (out: Outcome<OrderError>)
      modifies if user == null then {} else {user}
      ensures user == null ==> out == Fail(MissingUser)
      ensures user != null ==>
        out == Pass && user.availableBonusPoints == Accrue(old(user.availableBonusPoints), lineItems)
    {
      if user == null {
        return Fail(MissingUser);
      }
      user.availableBonusPoints := user.availableBonusPoints + TotalBonusPoints(lineItems);
      return Pass;
    }

    /**
     * An order update: the new line items are stored and the after-update
     * hook runs. When the hook raises, the update is rolled back.
     */
    method Update(items: seq<LineItem>) returns (out: Outcome<OrderError>)
      modifies this, if user == null then {} else {user}
      ensures user == old(user)
      ensures user == null ==> out == Fail(MissingUser) && lineItems == old(lineItems)
      ensures user != null ==>
        out == Pass && lineItems == items
        && user.availableBonusPoints == Accrue(old(user.availableBonusPoints), items)
    {
      var previous := lineItems;
      lineItems := items;
      out := CalculateUserBonusPoints();
      if out.Fail? {
        lineItems := previous;
      }
    }
  }

  /**
   * Two updates of an order whose line items stay the same credit the user
   * twice: the balance grows by twice the order's total.
   */
  method UpdateTwice(order: Order, items: seq<LineItem>) returns (out: Outcome<OrderError>)
    requires order.user != null
    modifies order, order.user
    ensures order.user == old(order.user) && order.lineItems == items && out == Pass
    ensures order.user.availableBonusPoints
            == old(order.user.availableBonusPoints) + 2 * TotalBonusPoints(items)
  {
    out := order.Update(items);
    out := order.Update(items);
    AccrueTwice(old(order.user.availableBonusPoints), items);
  }
}

=== FILE: products.dfy ===
/**
 * The product extension: a `bonus_points` integer column (default 0, not null)
 * and the numericality validator the plugin adds to Spree::Product.
 */
module Products {
  import opened Base

  /** A persisted product, reduced to the column this plugin adds. */
  datatype Product = Product(bonusPoints: int)

  /** The column default of `spree_products.bonus_points`. */
  const DefaultBonusPoints: int := 0

  /**
   * `numericality: { greater_than: 0, allow_blank: true }` on the value the
   * attribute holds when the product is validated: a blank (nil) value is
   * skipped, a present one must be strictly positive. Zero is not blank.
   */
  predicate BonusPointsValid(value: Option<int>)
  {
    match value
    case None => true
    case Some(v) => v > 0
  }

  /** A present value is accepted exactly when it is strictly positive. */
  lemma PresentValueNeedsPositive(v: int)
    ensures BonusPointsValid(Some(v)) <==> v > 0
  {
  }

  /** A blank value is always accepted. */
  lemma BlankValueAccepted()
    ensures BonusPointsValid(None)
  {
  }

  /**
   * As written, the validator rejects the column's own default: a product
   * whose bonus points were never set cannot be saved, and -1 is rejected too.
   */
  lemma DefaultBonusPointsRejected()
    ensures !BonusPointsValid(Some(DefaultBonusPoints))
    ensures !BonusPointsValid(Some(-1))
  {
  }

  /**
   * The evidently intended rule: blank or non-negative, so that the default
   * 0 passes while negative values are still refused.
   */
  predicate BonusPointsValidIntended(value: Option<int>)
  {
    match value
    case None => true
    case Some(v) => v >= 0
  }

  /**
   * The intended rule accepts the default and rejects -1, and it differs from
   * the rule as written on the single value 0.
   */
  lemma IntendedRuleAcceptsDefault(value: Option<int>)
    ensures BonusPointsValidIntended(Some(DefaultBonusPoints))
    ensures !BonusPointsValidIntended(Some(-1))
    ensures BonusPointsValid(value) != BonusPointsValidIntended(value) <==> value == Some(0)
  {
  }
}
